=== FILE: README.md ===
# Image-DownSizer pixel arithmetic in Dafny

This project models the pixel arithmetic of `ResizeImageManager` in
`StartUpForm.cs`. That class does two things:

- **Decoding.** `ConvertBytesToColorsRGBA` and `ConvertBytesToColorsRGB` turn a
  flat byte buffer into `Color` values, one group of bytes per pixel. Blue is
  byte 0 of the group, green byte 1 and red byte 2. Alpha is byte 3 in the
  four-byte layout and 255 in the three-byte layout.
- **Downscaling.** `DownscaleImageUsingAveraging` shrinks a row-major buffer by
  area averaging. For each output pixel it sums every byte position over a
  half-open source rectangle (its sampling window). It then writes the
  truncated mean into a freshly allocated buffer.

Modules:

- `ImageTypes` (image_types.dfy): `byte`, the C# `(byte)` cast, the two
  layouts, `Color` (the fields of `Color.FromArgb`), and a `Result` type that
  stands for the exceptions the decoders raise.
- `GridIndex` (grid_index.dfy): row-major offsets `(y * width + x) * bpp + k`.
  Lemmas show that every pixel's bytes lie inside the buffer, that earlier
  pixels lie wholly before later ones, and that every byte belongs to exactly
  one pixel and channel.
- `PixelCodec` (pixel_codec.dfy): the decoder as an imperative method that
  fills a fresh array in a loop. It is proved against a per-index function
  (`PixelAt`) and a reference decoding (`Decoded`). An inverse, `Encode`, gives
  the round-trip laws.
- `LegacyDecoders` (legacy_decoders.dfy): the two decoders as written, with
  their strides swapped (see Findings), on a buffer that is present. Here a
  read past the end of the buffer is an `IndexOutOfRange` failure.
- `SamplingWindow` (sampling_window.dfy): the window bounds
  `start = n * src / dst` and `end = min(src, (n + 1) * src / dst)`. Lemmas
  prove that every window is non-empty and inside the source, that adjacent
  windows tile it, and that every source column lies in exactly one window.
  These bounds are exact.
- `FloatWindow` (float_window.dfy): the same bounds as the source computes
  them, in single-precision floating point. The ratio and each product are
  rounded to the nearest float, and the `(int)` casts truncate. A concrete
  case shows the source skipping its last column (see Findings).
- `AreaAverage` (area_average.dfy): the window sums, the window mean, the
  resize as three methods, and lemmas about the result. The methods are:
  - the whole resize, with two loops;
  - one output pixel, which has no loop of its own;
  - the two summing loops of one output pixel, in one method.

  The lemmas show:
  - the output is unique;
  - each output byte lies between the window's least and greatest value, so
    the `(byte)` casts never wrap;
  - resizing to the same size is the identity;
  - a uniform image stays uniform;
  - a concrete 2 x 2 example averages to 127.

The resize is positional. The source names its accumulators `sumRed`,
`sumGreen`, `sumBlue` and `sumAlpha`, but `sumRed` holds byte 0, which the
decoder calls blue. The model keeps the source's names and averages byte k
into byte k.

Decoding follows the intended layout mapping: 4 bytes per pixel for RGBA and
3 for RGB. The code has these two constants swapped. The as-written behaviour
is modelled separately and reported under Findings.

## Model

| member | source | states |
|---|---|---|
| ImageTypes.ToByte | StartUpForm.cs:177-180 | the `(byte)` cast keeps the value modulo 256 and leaves every value in 0..255 unchanged |
| PixelCodec.ConvertBytesToColors | StartUpForm.cs:77-129 | fails with InvalidImageData exactly when the buffer is null or its length is not a multiple of the bytes per pixel; otherwise returns a fresh array of length / bpp colours; colour i has blue = byte i*bpp, green = byte i*bpp+1, red = byte i*bpp+2, and alpha = byte i*bpp+3 for RGBA or 255 for RGB; the array equals the reference decoding |
| PixelCodec.Decoded | StartUpForm.cs:86 | the reference decoding of a buffer of whole pixels has length / bpp colours |
| PixelCodec.DecodedAt | StartUpForm.cs:86-97 | colour i of the reference decoding is decoded from bytes [i*bpp, (i+1)*bpp), in buffer order |
| PixelCodec.EncodeColor | StartUpForm.cs:91-95 | a colour stored as blue, green, red[, alpha] reads back as itself; in the RGB layout alpha reads back as 255 |
| PixelCodec.EncodeDecoded | StartUpForm.cs:86-97 | decoding loses no byte: encoding the decoded colours in the same layout gives back the buffer |
| PixelCodec.DecodeEncoded | StartUpForm.cs:113-124 | decoding encoded colours gives them back; the RGB layout forgets alpha and every decoded alpha is 255 |
| GridIndex.GroupInBounds | StartUpForm.cs:88-95 | for i < length / bpp, bytes i*bpp to (i+1)*bpp - 1 lie inside the buffer |
| GridIndex.OffsetInBounds | StartUpForm.cs:165-171 | channel k of a pixel inside a width x height grid lies below width*height*bpp |
| GridIndex.OffsetBefore | StartUpForm.cs:182-189 | every byte of an earlier pixel in row-major order lies before a later pixel's first byte |
| GridIndex.OffsetCovers | StartUpForm.cs:182-189 | every byte of a width x height buffer is channel k of some pixel (x, y) in the grid |
| GridIndex.OffsetInjective | StartUpForm.cs:182-189 | two pixels with the same offset are the same pixel and channel, so the writes never collide |
| LegacyDecoders.StrideThreeOverrunsFrom | StartUpForm.cs:88-97 | with stride 3 and an alpha read, the loop fails with IndexOutOfRange from any pixel it reaches |
| LegacyDecoders.SourceRgbaOverruns | StartUpForm.cs:77-102 | the RGBA decoder as written rejects lengths that are not multiples of 3, fails with IndexOutOfRange on every other non-empty buffer, and decodes only the empty buffer |
| LegacyDecoders.MatchedStrideDecodesFrom | StartUpForm.cs:113-124 | with the stride matched to the layout, the loop from pixel i yields the reference decoding from colour i on |
| LegacyDecoders.MatchedStrideDecodes | StartUpForm.cs:86-97 | the source's decoder code with strides 4 (RGBA) and 3 (RGB) succeeds on every buffer of whole pixels and yields the reference decoding |
| LegacyDecoders.SourceRgbMisgroups | StartUpForm.cs:104-129 | the RGB decoder as written rejects a nine-byte three-pixel buffer that stride 3 accepts, and decodes a twelve-byte four-pixel buffer into three wrong colours |
| LegacyDecoders.SourceRgbIgnoresFourthByteFrom | StartUpForm.cs:115-124 | the loop of the RGB decoder as written gives the same result for buffers that differ only in bytes at offsets 3 mod 4 |
| LegacyDecoders.SourceConvertBytesToColorsRGBA | StartUpForm.cs:77-102 | the RGBA decoder as written (stride 3, alpha read at offset + 3) never returns a colour: it fails with InvalidImageData exactly when the length is not a multiple of 3, and otherwise fails with IndexOutOfRange or returns the empty array (SourceRgbaOverruns says which) |
| LegacyDecoders.SourceConvertBytesToColorsRGB | StartUpForm.cs:104-129 | the RGB decoder as written (stride 4) succeeds exactly on lengths that are multiples of 4 and fails with InvalidImageData otherwise; it returns length / 4 colours, colour j having blue = byte 4j, green = byte 4j+1, red = byte 4j+2 and alpha 255, so byte 4j+3 is skipped (see also SourceRgbIgnoresFourthByte) |
| LegacyDecoders.SourceRgbDecodesFrom | StartUpForm.cs:115-126 | from pixel i on, the as-written RGB loop reads only inside a buffer whose length is a multiple of 4 and yields one colour per group of four bytes, built from the group's first three bytes |
| LegacyDecoders.SourceRgbIgnoresFourthByte | StartUpForm.cs:104-129 | the RGB decoder as written, length check included, never depends on the fourth byte of a group |
| SamplingWindow.WindowInside | StartUpForm.cs:157-162 | when 0 < dst <= src, every window [start, end) is non-empty and inside [0, src), and the `min` never takes effect |
| SamplingWindow.WindowStartMonotone | StartUpForm.cs:157-161 | window starts never decrease |
| SamplingWindow.WindowsTile | StartUpForm.cs:157-162 | each window ends exactly where the next begins |
| SamplingWindow.WindowsSpan | StartUpForm.cs:157-162 | the first window starts at 0 and the last ends at the source size |
| SamplingWindow.WindowsDisjoint | StartUpForm.cs:157-163 | an earlier window ends at or before a later one starts, so no source column or row lies in two windows |
| SamplingWindow.WindowCoversFrom | StartUpForm.cs:157-163 | a column at or after window n's start lies in some window m >= n |
| SamplingWindow.WindowCovers | StartUpForm.cs:157-163 | every source column or row lies in some window |
| SamplingWindow.SameSizeWindows | StartUpForm.cs:147-162 | when dst == src, window n is exactly [n, n + 1) |
| AreaAverage.WritePixel | StartUpForm.cs:182-189 | writing one output pixel's bytes, and nothing before it, keeps every earlier output pixel and adds this one |
| AreaAverage.RowSumBetween | StartUpForm.cs:163-171 | a row sum of samples in [lo, hi] lies between lo and hi times the row length |
| AreaAverage.WindowSumBetween | StartUpForm.cs:159-175 | a window sum of samples in [lo, hi] lies between lo and hi times the window's pixel count |
| AreaAverage.MeanBetween | StartUpForm.cs:177-180 | each output byte lies between the least and greatest value of that byte over its window |
| AreaAverage.MeanIsByte | StartUpForm.cs:177-180 | every window mean is in 0..255, so the `(byte)` cast returns it unchanged |
| AreaAverage.DownscaleIsUnique | StartUpForm.cs:142-194 | the resize postcondition determines the whole output buffer: two buffers that meet it are equal |
| AreaAverage.SinglePixelSum | StartUpForm.cs:159-175 | the sum over a one-pixel window is that pixel's byte |
| AreaAverage.SameSizeMeans | StartUpForm.cs:147-180 | when the size is kept, each output byte's mean is the same source pixel's byte |
| AreaAverage.SameSizeIsIdentity | StartUpForm.cs:142-194 | resizing to the source's own size returns the first width*height*bpp bytes of the source unchanged |
| AreaAverage.UniformStaysUniform | StartUpForm.cs:157-185 | if every source pixel holds the same bytes, every output pixel holds those bytes |
| AreaAverage.TwoByTwoMean | StartUpForm.cs:157-180 | shrinking a 2 x 2 image to 1 x 1 gives the truncated mean of its four pixels |
| AreaAverage.TwoByTwoAverage | StartUpForm.cs:157-180 | a black, white, white, black 2 x 2 three-byte image shrinks to one pixel whose bytes are all 127 |
| AreaAverage.AccumulateWindow | StartUpForm.cs:159-175 | the summing loops return the sums of bytes 0, 1 and 2 over the window, the sum of byte 3 for RGBA (sumAlpha stays 0 for RGB), and the window's pixel count |
| AreaAverage.AveragePixel | StartUpForm.cs:154-180 | for output pixel (newX, newY), each average equals the window mean of that byte; alpha is 255 for RGB |
| AreaAverage.DownscaleImageUsingAveraging | StartUpForm.cs:142-194 | returns a fresh buffer of newWidth*newHeight*bpp bytes (bpp 4 for RGBA, 3 otherwise), which is empty when either new dimension is 0; when both are positive, no larger than the original and the input is long enough, byte k of output pixel (nx, ny) is the truncated mean of byte k over that pixel's window; the input is only read |
| FloatWindow.ToSingle | StartUpForm.cs:147-162 | a value of 0 or at least 1 rounded to single precision: a multiple of the float step at its exponent (24 significant bits), within half a step of the exact value; 0 stays 0 and values of at least 1 stay at least 1 |
| FloatWindow.SingleRatio | StartUpForm.cs:147-148 | when shrinking, the float ratio `src / (float)dst` is at least 1 |
| FloatWindow.SourceWindowStart | StartUpForm.cs:157-161 | the source's window start `(int)(n * ratio)`, with the product rounded to single precision, is never negative and is 0 for the first window |
| FloatWindow.SourceWindowEnd | StartUpForm.cs:158-162 | the source's truncated window end lies between 1 and the source size |
| FloatWindow.SourceSkipsLastColumn | StartUpForm.cs:147-163 | shrinking 13 columns to 11, the float ratio is 9913809 / 2^23 and the last window is [11, 12) where the exact window is [11, 13); no window reaches column 12 |

## Left out

- `ReadImageBytes`, `GetImageColors`, `GetImagePixelFormatValue` and `IsImageRGBA`. These read files and ask GDI+ for the pixel format. The model takes the layout (`Layout`, or the `isRGBA` flag) as an input.
- `DisplayImageFromBytes`, the form constructor and `pictureBox1_Click`. These are WinForms display code.
- The `Width`, `Height` and `FullLocalImageFilePath` properties. They are plain field accessors used only by the I/O and display code.
- DownscaleImageUsingAveraging: uses exact window bounds (integer floor division), not the source's single-precision `float` ratios. The two differ even at small sizes. Shrinking 13 columns to 11, the source ends its last window at column 12 and never reads column 12 (see Findings). Shrinking 26 to 22, an inner window boundary moves. WindowsSpan and WindowCovers hold for the exact bounds only. The float bounds are modelled in `FloatWindow` but the resize does not use them.
- DownscaleImageUsingAveraging: when both new dimensions are positive, requires `newWidth <= originalWidth`, `newHeight <= originalHeight` and an input of at least `originalWidth * originalHeight * bpp` bytes. The source has no such check. Upscaling divides by zero on an empty window, and a short input reads out of range. A zero `newWidth` or `newHeight` is modelled: it returns an empty buffer, as the source does. The constructor reaches this case for an image 1 or 2 pixels wide or high.
- DownscaleImageUsingAveraging: requires non-negative new dimensions. In the source a negative dimension throws an OverflowException only when the product `newWidth * newHeight * bytesPerPixel` is negative. With both dimensions -1, the source allocates a zero-filled buffer of 3 or 4 bytes, runs no loop and returns it. With one dimension negative and the other 0, it returns an empty buffer. The only caller (lines 17-18) passes `Width / 3` and `Height / 3`, which are never negative.
- LegacyDecoders: the as-written decoders take a buffer that is present. The `imageData == null` branch of lines 81 and 108 is modelled only in `PixelCodec.ConvertBytesToColors`.
- DownscaleImageUsingAveraging: the input is a non-null array, so a null input is not modelled. In the source, a null input throws a NullReferenceException only when both new dimensions are positive. With a zero dimension the input is never read and an empty buffer comes back.
- Integer widths are not modelled. `newWidth * newHeight * bytesPerPixel` and the pixel offsets are unbounded integers rather than 32-bit `int`. The sums are unbounded rather than `long` (no sum can overflow a `long` for an array that fits in memory).
- PixelCodec.ConvertBytesToColors: one method, parameterised by layout, models both `ConvertBytesToColorsRGBA` and `ConvertBytesToColorsRGB`. Its strides are the intended ones (4 and 3), not the code's (3 and 4). The code's behaviour is in `LegacyDecoders`.
- `PixelCodec.Encode` has no counterpart in the source. It is the inverse used to state that decoding loses no information.

## Findings

| source | as written | input that shows it | evidently intended | confidence | as-written member | corrected member |
|---|---|---|---|---|---|---|
| StartUpForm.cs:79 | `ConvertBytesToColorsRGBA` steps 3 bytes per pixel but reads alpha at `offset + 3` (line 95) | any non-empty buffer whose length is a multiple of 3, e.g. the 3 bytes `[1, 2, 3]`: the last pixel's alpha read is at index 3, one past the end, so IndexOutOfRangeException is thrown | 4 bytes per pixel | high (not executed) | LegacyDecoders.SourceRgbaOverruns | LegacyDecoders.MatchedStrideDecodes |
| StartUpForm.cs:106 | `ConvertBytesToColorsRGB` steps 4 bytes per pixel over three-byte pixels | the 9 bytes of three RGB pixels are rejected with ArgumentException; the 12 bytes of four RGB pixels decode to three colours built from the wrong bytes | 3 bytes per pixel | high (not executed) | LegacyDecoders.SourceRgbMisgroups | PixelCodec.ConvertBytesToColors |
| StartUpForm.cs:147-162 | the window bounds are computed in single precision: `originalWidth / (float)newWidth` and `(newX + 1) * xRatio` are each rounded to the nearest float before `(int)` truncates | originalWidth 13, newWidth 11: xRatio is 9913809 / 2^23, just below 13 / 11, and `11 * xRatio` rounds to 13631487 / 2^20, just below 13, so the last window is [11, 12) and column 12 is never read | the last window ends at originalWidth, so every source column is averaged into some output pixel | medium (not executed; assumes IEEE single-precision arithmetic, as .NET uses for `float`) | FloatWindow.SourceSkipsLastColumn | SamplingWindow.WindowsSpan |

=== FILE: area_average.dfy ===
/**
 * Downscaling by area averaging: byte k of output pixel (nx, ny) is the
 * truncated mean of byte k over the source pixels of that output pixel's
 * sampling window. The computation is positional: it never looks at what a
 * byte means, so byte 0 (blue, for the decoder) is averaged into byte 0.
 */
module AreaAverage {
  import opened ImageTypes
  import opened GridIndex
  import opened SamplingWindow

  /** A row-major pixel buffer together with the shape it is read with. */
  datatype Image = Image(bytes: seq<byte>, width: int, height: int, bpp: int) {
    /** The buffer holds at least width * height pixels of bpp bytes. */
    predicate Valid() {
      0 <= width && 0 <= height && 0 < bpp && width * height * bpp <= |bytes|
    }
  }

  /** Byte k of pixel (x, y). */
  function Sample(img: Image, x: int, y: int, k: int): (b: byte)
    requires img.Valid() && 0 <= x < img.width && 0 <= y < img.height && 0 <= k < img.bpp
  {
    OffsetInBounds(img.width, img.height, img.bpp, x, y, k);
    img.bytes[PixelOffset(img.width, img.bpp, x, y, k)]
  }

  /** Sum of byte k over columns [x0, x1) of row y, added left to right. */
  function RowSum(img: Image, k: int, y: int, x0: int, x1: int): (sum: int)
    requires img.Valid() && 0 <= k < img.bpp && 0 <= y < img.height && 0 <= x0 <= x1 <= img.width
    decreases x1 - x0
  {
    if x0 == x1 then 0 else RowSum(img, k, y, x0, x1 - 1) + Sample(img, x1 - 1, y, k) as int
  }

  /** Sum of byte k over the rectangle [x0, x1) x [y0, y1), added row by row. */
  function WindowSum(img: Image, k: int, x0: int, x1: int, y0: int, y1: int): (sum: int)
    requires img.Valid() && 0 <= k < img.bpp
    requires 0 <= x0 <= x1 <= img.width && 0 <= y0 <= y1 <= img.height
    decreases y1 - y0
  {
    if y0 == y1 then 0 else WindowSum(img, k, x0, x1, y0, y1 - 1) + RowSum(img, k, y1 - 1, x0, x1)
  }

  /** The target is no larger than the source in either dimension, and not empty. */
  predicate Shrinks(img: Image, dstW: int, dstH: int) {
    img.Valid() && 0 < dstW <= img.width && 0 < dstH <= img.height
  }

  /** The truncated mean of byte k over the sampling window of output pixel (nx, ny). */
  function WindowMean(img: Image, dstW: int, dstH: int, nx: int, ny: int, k: int): (mean: int)
    requires Shrinks(img, dstW, dstH) && 0 <= nx < dstW && 0 <= ny < dstH && 0 <= k < img.bpp
  {
    WindowInside(nx, img.width, dstW);
    WindowInside(ny, img.height, dstH);
    var x0, x1 := WindowStart(nx, img.width, dstW), WindowEnd(nx, img.width, dstW);
    var y0, y1 := WindowStart(ny, img.height, dstH), WindowEnd(ny, img.height, dstH);
    MulMonotone(1, x1 - x0, y1 - y0);
    WindowSum(img, k, x0, x1, y0, y1) / ((x1 - x0) * (y1 - y0))
  }

  /** `out` is the dstW x dstH area-averaged downscale of `img`: every output byte is its window's mean. */
  ghost predicate IsDownscaleOf(out: seq<byte>, img: Image, dstW: int, dstH: int) {
    && Shrinks(img, dstW, dstH)
    && |out| == dstW * dstH * img.bpp
    && forall nx, ny, k | 0 <= nx < dstW && 0 <= ny < dstH && 0 <= k < img.bpp ::
         Sample(Image(out, dstW, dstH, img.bpp), nx, ny, k) as int == WindowMean(img, dstW, dstH, nx, ny, k)
  }

  /** The output pixels before (nx, ny) in row-major order hold their window means. */
  ghost predicate DoneBefore(out: seq<byte>, img: Image, dstW: int, dstH: int, nx: int, ny: int)
    requires Shrinks(img, dstW, dstH) && |out| == dstW * dstH * img.bpp
  {
    forall x, y, k | 0 <= x < dstW && 0 <= y < dstH && 0 <= k < img.bpp && (y < ny || (y == ny && x < nx)) ::
      Sample(Image(out, dstW, dstH, img.bpp), x, y, k) as int == WindowMean(img, dstW, dstH, x, y, k)
  }

  /**
   * Writing output pixel (nx, ny) in full, and nothing before it, extends the
   * finished part by that pixel.
   */
  lemma WritePixel(before: seq<byte>, after: seq<byte>, img: Image, dstW: int, dstH: int, nx: int, ny: int)
    requires Shrinks(img, dstW, dstH) && 0 <= nx < dstW && 0 <= ny < dstH
    requires |before| == |after| == dstW * dstH * img.bpp
    requires DoneBefore(before, img, dstW, dstH, nx, ny)
    requires forall j | 0 <= j < |before| && j < PixelOffset(dstW, img.bpp, nx, ny, 0) :: after[j] == before[j]
    requires forall k | 0 <= k < img.bpp ::
      Sample(Image(after, dstW, dstH, img.bpp), nx, ny, k) as int == WindowMean(img, dstW, dstH, nx, ny, k)
    ensures DoneBefore(after, img, dstW, dstH, nx + 1, ny)
  {
    forall x, y, k | 0 <= x < dstW && 0 <= y < dstH && 0 <= k < img.bpp && (y < ny || (y == ny && x < nx + 1))
      ensures Sample(Image(after, dstW, dstH, img.bpp), x, y, k) as int == WindowMean(img, dstW, dstH, x, y, k)
    {
      if y < ny || x < nx {
        OffsetBefore(dstW, img.bpp, x, y, k, nx, ny);
        OffsetInBounds(dstW, dstH, img.bpp, x, y, k);
        var j := PixelOffset(dstW, img.bpp, x, y, k);
        assert after[j] == before[j];
        assert Sample(Image(after, dstW, dstH, img.bpp), x, y, k) == Sample(Image(before, dstW, dstH, img.bpp), x, y, k);
      }
    }
  }

  /** A finished row is the same as the start of the next one. */
  lemma NextRow(out: seq<byte>, img: Image, dstW: int, dstH: int, ny: int)
    requires Shrinks(img, dstW, dstH) && |out| == dstW * dstH * img.bpp
    requires DoneBefore(out, img, dstW, dstH, dstW, ny)
    ensures DoneBefore(out, img, dstW, dstH, 0, ny + 1)
  {
  }

  /** lo * c <= s <= hi * c gives lo <= s / c <= hi. */
  lemma DivBetween(s: int, c: int, lo: int, hi: int)
    requires 0 < c && lo * c <= s <= hi * c
    ensures lo <= s / c <= hi
  {
    DivModUnique(lo * c, c, lo, 0);
    DivModUnique(hi * c, c, hi, 0);
    DivMonotone(lo * c, s, c);
    DivMonotone(s, hi * c, c);
  }

  lemma {:induction false} RowSumBetween(img: Image, k: int, y: int, x0: int, x1: int, lo: int, hi: int)
    requires img.Valid() && 0 <= k < img.bpp && 0 <= y < img.height && 0 <= x0 <= x1 <= img.width
    requires forall x | x0 <= x < x1 :: lo <= Sample(img, x, y, k) as int <= hi
    ensures lo * (x1 - x0) <= RowSum(img, k, y, x0, x1) <= hi * (x1 - x0)
    decreases x1 - x0
  {
    if x0 < x1 {
      RowSumBetween(img, k, y, x0, x1 - 1, lo, hi);
      assert lo * (x1 - x0) == lo * (x1 - 1 - x0) + lo;
      assert hi * (x1 - x0) == hi * (x1 - 1 - x0) + hi;
    }
  }

  /** A sum over a window whose samples all lie in [lo, hi] lies between lo and hi times the window's size. */
  lemma {:induction false} WindowSumBetween(img: Image, k: int, x0: int, x1: int, y0: int, y1: int, lo: int, hi: int)
    requires img.Valid() && 0 <= k < img.bpp
    requires 0 <= x0 <= x1 <= img.width && 0 <= y0 <= y1 <= img.height
    requires forall x, y | x0 <= x < x1 && y0 <= y < y1 :: lo <= Sample(img, x, y, k) as int <= hi
    ensures lo * ((x1 - x0) * (y1 - y0)) <= WindowSum(img, k, x0, x1, y0, y1) <= hi * ((x1 - x0) * (y1 - y0))
    decreases y1 - y0
  {
    if y0 < y1 {
      WindowSumBetween(img, k, x0, x1, y0, y1 - 1, lo, hi);
      RowSumBetween(img, k, y1 - 1, x0, x1, lo, hi);
      var w, h := x1 - x0, y1 - 1 - y0;
      MulSucc(w, h);
      MulAdd(lo, w * h, w);
      MulAdd(hi, w * h, w);
    }
  }

  /**
   * Each output byte lies between the least and the greatest value of that
   * byte over its window.
   */
  lemma MeanBetween(img: Image, dstW: int, dstH: int, nx: int, ny: int, k: int, lo: int, hi: int)
    requires Shrinks(img, dstW, dstH) && 0 <= nx < dstW && 0 <= ny < dstH && 0 <= k < img.bpp
    requires forall x, y |
      WindowStart(nx, img.width, dstW) <= x < WindowEnd(nx, img.width, dstW) &&
      WindowStart(ny, img.height, dstH) <= y < WindowEnd(ny, img.height, dstH) &&
      0 <= x < img.width && 0 <= y < img.height ::
        lo <= Sample(img, x, y, k) as int <= hi
    ensures lo <= WindowMean(img, dstW, dstH, nx, ny, k) <= hi
  {
    WindowInside(nx, img.width, dstW);
    WindowInside(ny, img.height, dstH);
    var x0, x1 := WindowStart(nx, img.width, dstW), WindowEnd(nx, img.width, dstW);
    var y0, y1 := WindowStart(ny, img.height, dstH), WindowEnd(ny, img.height, dstH);
    WindowSumBetween(img, k, x0, x1, y0, y1, lo, hi);
    MulMonotone(1, x1 - x0, y1 - y0);
    DivBetween(WindowSum(img, k, x0, x1, y0, y1), (x1 - x0) * (y1 - y0), lo, hi);
  }

  /** Every mean is a byte value, so the source's `(byte)` casts never wrap. */
  lemma MeanIsByte(img: Image, dstW: int, dstH: int, nx: int, ny: int, k: int)
    requires Shrinks(img, dstW, dstH) && 0 <= nx < dstW && 0 <= ny < dstH && 0 <= k < img.bpp
    ensures 0 <= WindowMean(img, dstW, dstH, nx, ny, k) < 256
    ensures ToByte(WindowMean(img, dstW, dstH, nx, ny, k)) as int == WindowMean(img, dstW, dstH, nx, ny, k)
  {
    MeanBetween(img, dstW, dstH, nx, ny, k, 0, 255);
  }

  /** The postcondition of the resize pins its output down: two buffers that both satisfy it are equal. */
  lemma DownscaleIsUnique(img: Image, dstW: int, dstH: int, out: seq<byte>, out': seq<byte>)
    requires IsDownscaleOf(out, img, dstW, dstH) && IsDownscaleOf(out', img, dstW, dstH)
    ensures out == out'
  {
    forall j | 0 <= j < |out|
      ensures out[j] == out'[j]
    {
      OffsetCovers(dstW, dstH, img.bpp, j);
      var x, y, k := ColumnOf(dstW, img.bpp, j), RowOf(dstW, img.bpp, j), ChannelOf(img.bpp, j);
      assert Sample(Image(out, dstW, dstH, img.bpp), x, y, k) == Sample(Image(out', dstW, dstH, img.bpp), x, y, k);
    }
  }

  /** The sum over a one-pixel window is that pixel's byte. */
  lemma SinglePixelSum(img: Image, k: int, x: int, y: int)
    requires img.Valid() && 0 <= x < img.width && 0 <= y < img.height && 0 <= k < img.bpp
    ensures WindowSum(img, k, x, x + 1, y, y + 1) == Sample(img, x, y, k) as int
  {
    assert WindowSum(img, k, x, x + 1, y, y) == 0;
    assert RowSum(img, k, y, x, x) == 0;
  }

  /** Keeping the size, every window is the pixel itself, so every mean is that pixel's own byte. */
  lemma SameSizeMeans(img: Image, x: int, y: int, k: int)
    requires Shrinks(img, img.width, img.height) && 0 <= x < img.width && 0 <= y < img.height && 0 <= k < img.bpp
    ensures WindowMean(img, img.width, img.height, x, y, k) == Sample(img, x, y, k) as int
  {
    SameSizeWindows(x, img.width);
    SameSizeWindows(y, img.height);
    SinglePixelSum(img, k, x, y);
    var sum := WindowSum(img, k, x, x + 1, y, y + 1);
    assert (x + 1 - x) * (y + 1 - y) == 1;
    assert WindowMean(img, img.width, img.height, x, y, k) == sum / 1;
  }

  /** Resizing to the source's own size returns the source's pixels unchanged. */
  lemma SameSizeIsIdentity(img: Image, out: seq<byte>)
    requires IsDownscaleOf(out, img, img.width, img.height)
    ensures out == img.bytes[..img.width * img.height * img.bpp]
  {
    var w, h, b := img.width, img.height, img.bpp;
    forall j | 0 <= j < |out|
      ensures out[j] == img.bytes[j]
    {
      OffsetCovers(w, h, b, j);
      var x, y, k := ColumnOf(w, b, j), RowOf(w, b, j), ChannelOf(b, j);
      SameSizeMeans(img, x, y, k);
      assert Sample(Image(out, w, h, b), x, y, k) == Sample(img, x, y, k);
    }
  }

  /** A source whose pixels all hold the same bytes shrinks to an output whose pixels hold those bytes. */
  lemma UniformStaysUniform(img: Image, dstW: int, dstH: int, pixel: seq<byte>, out: seq<byte>)
    requires IsDownscaleOf(out, img, dstW, dstH) && |pixel| == img.bpp
    requires forall x, y, k | 0 <= x < img.width && 0 <= y < img.height && 0 <= k < img.bpp ::
      Sample(img, x, y, k) == pixel[k]
    ensures forall nx, ny, k | 0 <= nx < dstW && 0 <= ny < dstH && 0 <= k < img.bpp ::
      Sample(Image(out, dstW, dstH, img.bpp), nx, ny, k) == pixel[k]
  {
    forall nx, ny, k | 0 <= nx < dstW && 0 <= ny < dstH && 0 <= k < img.bpp
      ensures Sample(Image(out, dstW, dstH, img.bpp), nx, ny, k) == pixel[k]
    {
      MeanBetween(img, dstW, dstH, nx, ny, k, pixel[k] as int, pixel[k] as int);
    }
  }

  /** Shrinking a 2 x 2 image to one pixel averages its four pixels. */
  lemma TwoByTwoMean(img: Image, k: int)
    requires img.Valid() && img.width == 2 && img.height == 2 && 0 <= k < img.bpp
    ensures Shrinks(img, 1, 1)
    ensures WindowMean(img, 1, 1, 0, 0, k)
      == (Sample(img, 0, 0, k) as int + Sample(img, 1, 0, k) as int + Sample(img, 0, 1, k) as int + Sample(img, 1, 1, k) as int) / 4
  {
    assert WindowStart(0, 2, 1) == 0 && WindowEnd(0, 2, 1) == 2;
    assert WindowSum(img, k, 0, 2, 0, 2) == RowSum(img, k, 0, 0, 2) + RowSum(img, k, 1, 0, 2);
  }

  /**
   * A 2 x 2 three-byte image of black, white, white, black pixels shrinks to
   * one pixel whose every byte is 127: (0 + 255 + 255 + 0) / 4, truncated.
   */
  lemma TwoByTwoAverage()
    ensures var img := Image([0, 0, 0, 255, 255, 255, 255, 255, 255, 0, 0, 0], 2, 2, 3);
      && Shrinks(img, 1, 1)
      && WindowMean(img, 1, 1, 0, 0, 0) == 127
      && WindowMean(img, 1, 1, 0, 0, 1) == 127
      && WindowMean(img, 1, 1, 0, 0, 2) == 127
  {
    var img := Image([0, 0, 0, 255, 255, 255, 255, 255, 255, 0, 0, 0], 2, 2, 3);
    TwoByTwoMean(img, 0);
    TwoByTwoMean(img, 1);
    TwoByTwoMean(img, 2);
  }

  /**
   * The inner two loops of DownscaleImageUsingAveraging for one output
   * pixel: the sums of bytes 0, 1, 2 (and 3 for RGBA) over the window
   * [startX, endX) x [startY, endY), and the number of pixels visited. As in
   * the source, `sumRed` holds byte 0, `sumGreen` byte 1, `sumBlue` byte 2.
   */
  method AccumulateWindow(originalPixels: array<byte>, originalWidth: int, originalHeight: int, isRGBA: bool,
                          startX: int, endX: int, startY: int, endY: int)
    returns (sumRed: int, sumGreen: int, sumBlue: int, sumAlpha: int, count: int)
    requires Image(originalPixels[..], originalWidth, originalHeight, LayoutFor(isRGBA).BytesPerPixel()).Valid()
    requires 0 <= startX <= endX <= originalWidth && 0 <= startY <= endY <= originalHeight
    ensures var img := Image(originalPixels[..], originalWidth, originalHeight, LayoutFor(isRGBA).BytesPerPixel());
      && sumRed == WindowSum(img, 0, startX, endX, startY, endY)
      && sumGreen == WindowSum(img, 1, startX, endX, startY, endY)
      && sumBlue == WindowSum(img, 2, startX, endX, startY, endY)
      && sumAlpha == (if isRGBA then WindowSum(img, 3, startX, endX, startY, endY) else 0)
    ensures count == (endX - startX) * (endY - startY)
  {
    var bytesPerPixel := if isRGBA then 4 else 3;
    ghost var img := Image(originalPixels[..], originalWidth, originalHeight, bytesPerPixel);
    sumRed, sumGreen, sumBlue, sumAlpha := 0, 0, 0, 0;
    count := 0;
    var y := startY;
    while y < endY
      invariant startY <= y <= endY
      invariant sumRed == WindowSum(img, 0, startX, endX, startY, y)
      invariant sumGreen == WindowSum(img, 1, startX, endX, startY, y)
      invariant sumBlue == WindowSum(img, 2, startX, endX, startY, y)
      invariant sumAlpha == (if isRGBA then WindowSum(img, 3, startX, endX, startY, y) else 0)
      invariant count == (endX - startX) * (y - startY)
    {
      var x := startX;
      while x < endX
        invariant startX <= x <= endX
        invariant sumRed == WindowSum(img, 0, startX, endX, startY, y) + RowSum(img, 0, y, startX, x)
        invariant sumGreen == WindowSum(img, 1, startX, endX, startY, y) + RowSum(img, 1, y, startX, x)
        invariant sumBlue == WindowSum(img, 2, startX, endX, startY, y) + RowSum(img, 2, y, startX, x)
        invariant sumAlpha == (if isRGBA then WindowSum(img, 3, startX, endX, startY, y) + RowSum(img, 3, y, startX, x) else 0)
        invariant count == (endX - startX) * (y - startY) + (x - startX)
      {
        OffsetInBounds(originalWidth, originalHeight, bytesPerPixel, x, y, bytesPerPixel - 1);
        var originalIndex := (y * originalWidth + x) * bytesPerPixel;
        sumRed := sumRed + originalPixels[originalIndex] as int;
        sumGreen := sumGreen + originalPixels[originalIndex + 1] as int;
        sumBlue := sumBlue + originalPixels[originalIndex + 2] as int;
        if isRGBA {
          sumAlpha := sumAlpha + originalPixels[originalIndex + 3] as int;
        }
        count := count + 1;
        x := x + 1;
      }
      assert (endX - startX) * (y + 1 - startY) == (endX - startX) * (y - startY) + (endX - startX);
      y := y + 1;
    }
  }

  /**
   * The body of DownscaleImageUsingAveraging for output pixel (newX, newY):
   * its sampling window, the sums over it, and each sum divided by the
   * number of pixels and cast to a byte. Alpha is averaged for RGBA and is
   * 255 otherwise.
   */
  method AveragePixel(originalPixels: array<byte>, originalWidth: int, originalHeight: int,
                      newWidth: int, newHeight: int, isRGBA: bool, newX: int, newY: int)
    returns (avgRed: byte, avgGreen: byte, avgBlue: byte, avgAlpha: byte)
    requires Shrinks(Image(originalPixels[..], originalWidth, originalHeight, LayoutFor(isRGBA).BytesPerPixel()), newWidth, newHeight)
    requires 0 <= newX < newWidth && 0 <= newY < newHeight
    ensures var img := Image(originalPixels[..], originalWidth, originalHeight, LayoutFor(isRGBA).BytesPerPixel());
      && avgRed as int == WindowMean(img, newWidth, newHeight, newX, newY, 0)
      && avgGreen as int == WindowMean(img, newWidth, newHeight, newX, newY, 1)
      && avgBlue as int == WindowMean(img, newWidth, newHeight, newX, newY, 2)
      && avgAlpha as int == if isRGBA then WindowMean(img, newWidth, newHeight, newX, newY, 3) else 255
  {
    ghost var img := Image(originalPixels[..], originalWidth, originalHeight, LayoutFor(isRGBA).BytesPerPixel());
    WindowInside(newY, originalHeight, newHeight);
    WindowInside(newX, originalWidth, newWidth);
    var startY := WindowStart(newY, originalHeight, newHeight);
    var endY := WindowEnd(newY, originalHeight, newHeight);
    var startX := WindowStart(newX, originalWidth, newWidth);
    var endX := WindowEnd(newX, originalWidth, newWidth);
    var sumRed, sumGreen, sumBlue, sumAlpha, count :=
      AccumulateWindow(originalPixels, originalWidth, originalHeight, isRGBA, startX, endX, startY, endY);
    MulMonotone(1, endX - startX, endY - startY);

    MeanIsByte(img, newWidth, newHeight, newX, newY, 0);
    MeanIsByte(img, newWidth, newHeight, newX, newY, 1);
    MeanIsByte(img, newWidth, newHeight, newX, newY, 2);
    avgRed := ToByte(sumRed / count);
    avgGreen := ToByte(sumGreen / count);
    avgBlue := ToByte(sumBlue / count);
    if isRGBA {
      MeanIsByte(img, newWidth, newHeight, newX, newY, 3);
      avgAlpha := ToByte(sumAlpha / count);
    } else {
      avgAlpha := 255;
    }
  }

  /**
   * DownscaleImageUsingAveraging: a fresh newWidth x newHeight buffer, in
   * the same layout as the source, whose every byte is the mean of that byte
   * over the output pixel's sampling window. The source buffer is only read.
   */
  method DownscaleImageUsingAveraging(originalPixels: array<byte>, originalWidth: int, originalHeight: int,
                                      newWidth: int, newHeight: int, isRGBA: bool)
    returns (newPixels: array<byte>)
    requires 0 <= newWidth && 0 <= newHeight
    requires 0 < newWidth && 0 < newHeight ==>
      && newWidth <= originalWidth && newHeight <= originalHeight
      && originalWidth * originalHeight * LayoutFor(isRGBA).BytesPerPixel() <= originalPixels.Length
    ensures fresh(newPixels)
    ensures newPixels.Length == newWidth * newHeight * LayoutFor(isRGBA).BytesPerPixel()
    ensures newWidth == 0 || newHeight == 0 ==> newPixels.Length == 0
    ensures 0 < newWidth && 0 < newHeight ==> IsDownscaleOf(newPixels[..],
      Image(originalPixels[..], originalWidth, originalHeight, LayoutFor(isRGBA).BytesPerPixel()), newWidth, newHeight)
  {
    var bytesPerPixel := if isRGBA then 4 else 3;
    ghost var img := Image(originalPixels[..], originalWidth, originalHeight, bytesPerPixel);
    MulMonotone(0, newWidth, newHeight);
    MulMonotone(0, newWidth * newHeight, bytesPerPixel);
    newPixels := new byte[newWidth * newHeight * bytesPerPixel];

    var newY := 0;
    while newY < newHeight
      invariant 0 <= newY <= newHeight
      invariant 0 < newWidth && 0 < newHeight ==> DoneBefore(newPixels[..], img, newWidth, newHeight, 0, newY)
    {
      var newX := 0;
      while newX < newWidth
        invariant 0 <= newX <= newWidth
        invariant 0 < newWidth && 0 < newHeight ==> DoneBefore(newPixels[..], img, newWidth, newHeight, newX, newY)
      {
        var avgRed, avgGreen, avgBlue, avgAlpha :=
          AveragePixel(originalPixels, originalWidth, originalHeight, newWidth, newHeight, isRGBA, newX, newY);

        OffsetInBounds(newWidth, newHeight, bytesPerPixel, newX, newY, bytesPerPixel - 1);
        var newIndex := (newY * newWidth + newX) * bytesPerPixel;
        ghost var before := newPixels[..];
        newPixels[newIndex] := avgRed;
        newPixels[newIndex + 1] := avgGreen;
        newPixels[newIndex + 2] := avgBlue;
        if isRGBA {
          newPixels[newIndex + 3] := avgAlpha;
        }
        WritePixel(before, newPixels[..], img, newWidth, newHeight, newX, newY);
        newX := newX + 1;
      }
      if 0 < newWidth {
        NextRow(newPixels[..], img, newWidth, newHeight, newY);
      }
      newY := newY + 1;
    }
  }
}

=== FILE: float_window.dfy ===
/**
 * The sampling windows as StartUpForm.cs computes them, in IEEE 754 single
 * precision: the ratio `src / (float)dst` and each product `n * ratio` are
 * rounded to the nearest float (ties to even), and the `(int)` casts
 * truncate. When shrinking, every value rounded here is 0 or at least 1, so
 * only normal floats of at least 1 are modelled.
 */
module FloatWindow {
  import opened GridIndex
  import opened SamplingWindow

  /** The non-negative rational num / den. */
  datatype Fraction = Fraction(num: nat, den: nat)

  /** 2^23: a single-precision float carries 24 significant bits. */
  const Unit: nat := 0x80_0000

  function Pow2(e: nat): (r: nat)
    ensures 1 <= r
  {
    if e == 0 then 1 else 2 * Pow2(e - 1)
  }

  /** The binary exponent of num / den: 2^p <= num / den < 2^(p + 1). */
  function Exponent(num: nat, den: nat): (p: nat)
    requires 0 < den <= num
    ensures Pow2(p) * den <= num < 2 * Pow2(p) * den
    decreases num - den
  {
    if num < 2 * den then 0
    else
      var q := Exponent(num, 2 * den);
      Doubling(Pow2(q), den);
      q + 1
  }

  /** Doubling a scale is the same as doubling the denominator it multiplies. */
  lemma Doubling(a: int, den: int)
    ensures (2 * a) * den == a * (2 * den)
    ensures 2 * (2 * a) * den == 2 * a * (2 * den)
  {
  }

  /** The distance between a and b. */
  function Dist(a: int, b: int): (d: nat) {
    if a <= b then b - a else a - b
  }

  /** The quotient of n by d is at least q when n is at least q * d. */
  lemma QuotientAtLeast(n: int, d: int, q: int)
    requires 0 < d && q * d <= n
    ensures q <= n / d
  {
    DivMonotone(q * d, n, d);
    DivModUnique(q * d, d, q, 0);
  }

  /**
   * num / den rounded to single precision, ties to even: with 2^p the
   * leading power of two of num / den, the result is a multiple of
   * 2^p / 2^23 (24 significant bits) within half of that step of num / den.
   * A value of at least 1 stays at least 1.
   */
  function ToSingle(num: nat, den: nat): (f: Fraction)
    requires 0 < den && (num == 0 || den <= num)
    ensures f.den == Unit
    ensures num == 0 <==> f.num == 0
    ensures num != 0 ==> f.den <= f.num
    ensures num != 0 ==> f.num % Pow2(Exponent(num, den)) == 0
    ensures num != 0 ==> 2 * Dist(f.num * den, num * Unit) <= Pow2(Exponent(num, den)) * den
  {
    if num == 0 then Fraction(0, Unit)
    else
      var p := Exponent(num, den);
      var scaledDen := den * Pow2(p);
      AtLeastUnit(num, den, Pow2(p));
      var m := RoundHalfEven(num * Unit, scaledDen);
      Rescale(m, Pow2(p), den);
      Fraction(m * Pow2(p), Unit)
  }

  /** When num / den is at least scale, num * 2^23 / (den * scale) is at least 2^23. */
  lemma AtLeastUnit(num: int, den: int, scale: int)
    requires 0 < den && 0 < scale && scale * den <= num
    ensures 0 < den * scale && Unit <= (num * Unit) / (den * scale)
  {
    MulMonotone(1, scale, den);
    MulMonotone(scale * den, num, Unit);
    assert (den * scale) * Unit == scale * den * Unit;
    QuotientAtLeast(num * Unit, den * scale, Unit);
  }

  /** A mantissa m at least 2^23, scaled by a power of two, is a multiple of it and still at least 2^23. */
  lemma Rescale(m: int, scale: int, den: int)
    requires Unit <= m && 0 < scale
    ensures (m * scale) % scale == 0 && Unit <= m * scale
    ensures m * scale * den == m * (den * scale)
  {
    MulMonotone(1, scale, m);
    DivModUnique(m * scale, scale, m, 0);
  }

  /** n / d rounded to the nearest integer, ties to the even one. */
  function RoundHalfEven(n: nat, d: nat): (m: nat)
    requires 0 < d
    ensures n / d <= m
    ensures 2 * Dist(m * d, n) <= d
  {
    var q, r := n / d, n % d;
    var m := if 2 * r > d || (2 * r == d && q % 2 == 1) then q + 1 else q;
    NearestStep(n, d, q, r, m);
    m
  }

  /** Rounding the quotient q up when the remainder r is at least half of d, down when at most half, lands within d / 2 of n. */
  lemma NearestStep(n: int, d: int, q: int, r: int, m: int)
    requires 0 < d && 0 <= r < d && n == q * d + r
    requires (m == q && 2 * r <= d) || (m == q + 1 && d <= 2 * r)
    ensures 2 * Dist(m * d, n) <= d
  {
    if m == q + 1 {
      MulSucc(d, q);
      assert m * d == q * d + d;
    }
  }

  /** `(float)src / dst`, as `xRatio` and `yRatio` hold it. */
  function SingleRatio(src: int, dst: int): (f: Fraction)
    requires 0 < dst <= src
    ensures 0 < f.den <= f.num
  {
    ToSingle(src, dst)
  }

  /** `(int)(n * ratio)`: the first source column of window n, as the source computes it. */
  function SourceWindowStart(n: int, src: int, dst: int): (start: int)
    requires 0 <= n && 0 < dst <= src
    ensures 0 <= start
    ensures n == 0 ==> start == 0
  {
    var ratio := SingleRatio(src, dst);
    assert n == 0 || ratio.den <= n * ratio.num by {
      if 0 < n {
        MulMonotone(1, n, ratio.num);
      }
    }
    var v := ToSingle(n * ratio.num, ratio.den);
    v.num / v.den
  }

  /** `(int)Math.Min(src, (n + 1) * ratio)`: the end of window n, as the source computes it. */
  function SourceWindowEnd(n: int, src: int, dst: int): (end: int)
    requires 0 <= n && 0 < dst <= src
    ensures 1 <= end <= src
  {
    var ratio := SingleRatio(src, dst);
    MulMonotone(1, n + 1, ratio.num);
    var v := ToSingle((n + 1) * ratio.num, ratio.den);
    QuotientAtLeast(v.num, v.den, 1);
    Min(src, v.num / v.den)
  }

  /**
   * Shrinking 13 columns to 11: the single-precision ratio is just below
   * 13 / 11, so 11 * ratio rounds to just below 13 and the last window ends
   * at column 12 where the exact window [11, 13) ends at 13. No window reaches
   * column 12, so the source never reads it.
   */
  lemma SourceSkipsLastColumn()
    ensures SingleRatio(13, 11) == Fraction(9913809, Unit)
    ensures SourceWindowStart(10, 13, 11) == 11 && SourceWindowEnd(10, 13, 11) == 12
    ensures WindowEnd(10, 13, 11) == 13
    ensures forall n | 0 <= n < 11 :: SourceWindowEnd(n, 13, 11) <= 12
  {
    assert SingleRatio(13, 11) == Fraction(9913809, 8388608);
    assert ToSingle(10 * 9913809, 8388608) == Fraction(99138088, 8388608);
    assert ToSingle(11 * 9913809, 8388608) == Fraction(109051896, 8388608);
    forall n | 0 <= n < 11
      ensures SourceWindowEnd(n, 13, 11) <= 12
    {
      assert ToSingle((n + 1) * 9913809, 8388608).num / 8388608 <= 12;
    }
  }
}

=== FILE: grid_index.dfy ===
/**
 * Row-major addressing of a flat pixel buffer: channel k of pixel (x, y) in a
 * grid `width` pixels wide with `bpp` bytes per pixel sits at
 * (y * width + x) * bpp + k. The decoder, the resizer's reads and its writes
 * all address bytes this way.
 */
module GridIndex {

  function PixelOffset(width: int, bpp: int, x: int, y: int, k: int): (offset: int) {
    (y * width + x) * bpp + k
  }

  /** Multiplying by a non-negative number keeps an order. */
  lemma MulMonotone(a: int, b: int, c: int)
    requires a <= b && 0 <= c
    ensures a * c <= b * c
  {
    assert b * c - a * c == (b - a) * c;
  }

  /** Floor division by a positive number keeps an order. */
  lemma DivMonotone(a: int, b: int, d: int)
    requires a <= b && 0 < d
    ensures a / d <= b / d
  {
    if a / d > b / d {
      MulMonotone(b / d + 1, a / d, d);
      assert false;
    }
  }

  /** The quotient and remainder of n by d are the only q, r with n == q * d + r and 0 <= r < d. */
  lemma DivModUnique(n: int, d: int, q: int, r: int)
    requires 0 < d && 0 <= r < d && n == q * d + r
    ensures n / d == q && n % d == r
  {
    var q', r' := n / d, n % d;
    assert n == q' * d + r';
    if q' < q {
      MulMonotone(q' + 1, q, d);
      assert false;
    } else if q < q' {
      MulMonotone(q + 1, q', d);
      assert false;
    }
  }

  /** A pixel inside a width x height grid has all of its channels inside the buffer. */
  lemma OffsetInBounds(width: int, height: int, bpp: int, x: int, y: int, k: int)
    requires 0 <= x < width && 0 <= y < height && 0 <= k < bpp
    ensures 0 <= PixelOffset(width, bpp, x, y, k) < width * height * bpp
  {
    MulMonotone(0, y, width);
    MulMonotone(y + 1, height, width);
    MulMonotone(0, y * width + x, bpp);
    MulMonotone(y * width + x + 1, height * width, bpp);
    assert (y * width + x + 1) * bpp == (y * width + x) * bpp + bpp;
    assert height * width * bpp == width * height * bpp;
  }

  /**
   * Pixels that come earlier in row-major order lie wholly before a later
   * pixel's first byte.
   */
  lemma OffsetBefore(width: int, bpp: int, x: int, y: int, k: int, x': int, y': int)
    requires 0 <= x < width && 0 <= k < bpp && 0 <= x' < width
    requires y < y' || (y == y' && x < x')
    ensures PixelOffset(width, bpp, x, y, k) < PixelOffset(width, bpp, x', y', 0)
  {
    var p, p' := y * width + x, y' * width + x';
    if y < y' {
      MulMonotone(y + 1, y', width);
      assert (y + 1) * width == y * width + width;
    }
    assert p + 1 <= p';
    MulMonotone(p + 1, p', bpp);
    assert (p + 1) * bpp == p * bpp + bpp;
  }

  /** The pixel and channel that byte j of a row-major buffer belongs to. */
  function ColumnOf(width: int, bpp: int, j: int): (x: int)
    requires 0 < width && 0 < bpp
  {
    (j / bpp) % width
  }

  function RowOf(width: int, bpp: int, j: int): (y: int)
    requires 0 < width && 0 < bpp
  {
    (j / bpp) / width
  }

  function ChannelOf(bpp: int, j: int): (k: int)
    requires 0 < bpp
  {
    j % bpp
  }

  /** Every byte of a width x height buffer is channel k of exactly one pixel (x, y). */
  lemma OffsetCovers(width: int, height: int, bpp: int, j: int)
    requires 0 < width && 0 < bpp && 0 <= j < width * height * bpp
    ensures var x, y, k := ColumnOf(width, bpp, j), RowOf(width, bpp, j), ChannelOf(bpp, j);
      0 <= x < width && 0 <= y < height && 0 <= k < bpp && PixelOffset(width, bpp, x, y, k) == j
  {
    var p := j / bpp;
    assert j == p * bpp + j % bpp;
    if p >= width * height {
      MulMonotone(width * height, p, bpp);
      assert false;
    }
    assert p == (p / width) * width + p % width;
    if p / width >= height {
      MulMonotone(height, p / width, width);
      assert false;
    }
    MulMonotone(0, p, 1);
  }

  /** Two pixels that share an offset are the same pixel and channel. */
  lemma OffsetInjective(width: int, bpp: int, x: int, y: int, k: int, x': int, y': int, k': int)
    requires 0 <= x < width && 0 <= y && 0 <= k < bpp
    requires 0 <= x' < width && 0 <= y' && 0 <= k' < bpp
    requires PixelOffset(width, bpp, x, y, k) == PixelOffset(width, bpp, x', y', k')
    ensures x == x' && y == y' && k == k'
  {
    var j := PixelOffset(width, bpp, x, y, k);
    DivModUnique(j, bpp, y * width + x, k);
    DivModUnique(j, bpp, y' * width + x', k');
    DivModUnique(y * width + x, width, y, x);
    DivModUnique(y' * width + x', width, y', x');
  }

  /** Pixel i of a buffer holding n / bpp whole pixels occupies bytes [i * bpp, (i + 1) * bpp). */
  lemma GroupInBounds(n: int, bpp: int, i: int)
    requires 0 < bpp && 0 <= i < n / bpp
    ensures 0 <= i * bpp && (i + 1) * bpp <= n && (i + 1) * bpp == i * bpp + bpp
  {
    MulMonotone(0, i, bpp);
    MulMonotone(i + 1, n / bpp, bpp);
    assert n == (n / bpp) * bpp + n % bpp;
  }

  /** Dropping the first pixel of a buffer of whole pixels leaves whole pixels, one fewer. */
  lemma DropGroup(n: int, bpp: int)
    requires 0 < bpp <= n && n % bpp == 0
    ensures (n - bpp) % bpp == 0 && (n - bpp) / bpp == n / bpp - 1
  {
    assert n == (n / bpp) * bpp;
    DivModUnique(n - bpp, bpp, n / bpp - 1, 0);
  }

  /** A buffer of c pixels of bpp bytes holds whole pixels, c of them. */
  lemma WholeGroups(c: int, bpp: int)
    requires 0 <= c && 0 < bpp
    ensures (c * bpp) % bpp == 0 && (c * bpp) / bpp == c
  {
    DivModUnique(c * bpp, bpp, c, 0);
  }

  /** a * (b + 1) == a * b + a, the step of an induction over a product. */
  lemma MulSucc(a: int, b: int)
    ensures a * (b + 1) == a * b + a
  {
  }

  /** a * (b + c) == a * b + a * c. */
  lemma MulAdd(a: int, b: int, c: int)
    ensures a * (b + c) == a * b + a * c
  {
  }
}

=== FILE: image_types.dfy ===
/** Values shared by the pixel decoder and the area-averaging resizer. */
module ImageTypes {

  /** An unsigned 8-bit value, as C#'s `byte`. */
  newtype byte = x: int | 0 <= x < 256

  /** C#'s `(byte)` cast of an integer: keeps the low eight bits. */
  function ToByte(v: int): (r: byte)
    ensures 0 <= v < 256 ==> r as int == v
    ensures (r as int - v) % 256 == 0
  {
    (v % 256) as byte
  }

  /** How many bytes make up one pixel of a flat buffer. */
  datatype Layout = RGB | RGBA {
    function BytesPerPixel(): (n: int)
      ensures n == 3 || n == 4
      ensures n == 4 <==> this == RGBA
    {
      if RGBA? then 4 else 3
    }
  }

  /** The layout named by the resizer's `isRGBA` flag. */
  function LayoutFor(isRGBA: bool): (l: Layout)
    ensures l.RGBA? <==> isRGBA
  {
    if isRGBA then RGBA else RGB
  }

  /** A decoded pixel, with the channels in the order of `Color.FromArgb(alpha, red, green, blue)`. */
  datatype Color = Color(alpha: byte, red: byte, green: byte, blue: byte)

  /** The exceptions the decoders can raise. */
  datatype Error =
    | InvalidImageData   // ArgumentException: null input or a length that is not a whole number of pixels
    | IndexOutOfRange    // IndexOutOfRangeException: a read past the end of the buffer

  /** A value, or the exception that was raised instead. */
  datatype Result<+T> = Success(value: T) | Failure(error: Error) {
    predicate IsFailure() {
      Failure?
    }

    function PropagateFailure<U>(): (r: Result<U>)
      requires Failure?
    {
      Failure(error)
    }

    function Extract(): (v: T)
      requires Success?
    {
      value
    }
  }
}

=== FILE: legacy_decoders.dfy ===
/**
 * The two decoders as StartUpForm.cs writes them, on a buffer that is
 * present (the null test is modelled in PixelCodec only), with their strides
 * swapped: ConvertBytesToColorsRGBA groups 3 bytes per pixel yet reads a
 * fourth, and ConvertBytesToColorsRGB groups 4 bytes per pixel. A read past
 * the end of the buffer raises IndexOutOfRange, as in C#.
 */
module LegacyDecoders {
  import opened ImageTypes
  import opened GridIndex
  import opened PixelCodec

  /** imageData[k], or the exception C# raises when k is out of range. */
  function ReadByte(data: seq<byte>, k: int): (r: Result<byte>) {
    if 0 <= k < |data| then Success(data[k]) else Failure(IndexOutOfRange)
  }

  /**
   * The loop body for pixels i, i+1, ... of `count` bytes each: blue, green
   * and red from offsets 0, 1, 2 and, when `readsAlpha`, alpha from offset 3.
   */
  function DecodeFrom(data: seq<byte>, count: int, readsAlpha: bool, i: nat): (r: Result<seq<Color>>)
    requires 0 < count
    ensures r.Failure? ==> r.error == IndexOutOfRange
    ensures r.Success? && i <= |data| / count ==> |r.value| == |data| / count - i
    decreases |data| / count - i
  {
    if i >= |data| / count then Success([])
    else
      var offset := i * count;
      var blue :- ReadByte(data, offset);
      var green :- ReadByte(data, offset + 1);
      var red :- ReadByte(data, offset + 2);
      var alpha :- if readsAlpha then ReadByte(data, offset + 3) else Success(255);
      var rest :- DecodeFrom(data, count, readsAlpha, i + 1);
      Success([Color(alpha, red, green, blue)] + rest)
  }

  /** Either decoder as written: the length check, then the loop. */
  function DecodeWithCount(data: seq<byte>, count: int, readsAlpha: bool): (r: Result<seq<Color>>)
    requires 0 < count
  {
    if |data| % count != 0 then Failure(InvalidImageData) else DecodeFrom(data, count, readsAlpha, 0)
  }

  /**
   * ConvertBytesToColorsRGBA as written: `count = 3`, alpha read at
   * offset + 3. It rejects a length that is not a multiple of 3 and
   * otherwise overruns on every non-empty buffer, so it never returns a
   * colour.
   */
  function SourceConvertBytesToColorsRGBA(data: seq<byte>): (r: Result<seq<Color>>)
    ensures r.Success? ==> r.value == []
    ensures r == Failure(InvalidImageData) <==> |data| % 3 != 0
  {
    if |data| % 3 == 0 && |data| > 0 then
      StrideThreeOverrunsFrom(data, 0);
      DecodeWithCount(data, 3, true)
    else
      DecodeWithCount(data, 3, true)
  }

  /** Colour p as the RGB decoder as written reads it: from bytes 4p, 4p + 1, 4p + 2, fully opaque. */
  function RgbAt(data: seq<byte>, p: int): (c: Color)
    requires 0 <= p < |data| / 4
  {
    GroupInBounds(|data|, 4, p);
    Color(255, data[p * 4 + 2], data[p * 4 + 1], data[p * 4])
  }

  /**
   * ConvertBytesToColorsRGB as written: `count = 4`, alpha fixed at 255. It
   * succeeds exactly on lengths that are multiples of 4, with one colour per
   * four bytes, read from the first three of them.
   */
  function SourceConvertBytesToColorsRGB(data: seq<byte>): (r: Result<seq<Color>>)
    ensures r.Success? <==> |data| % 4 == 0
    ensures r.Failure? ==> r.error == InvalidImageData
    ensures r.Success? ==> |r.value| == |data| / 4 && forall j :: 0 <= j < |r.value| ==> r.value[j] == RgbAt(data, j)
  {
    if |data| % 4 == 0 then
      SourceRgbDecodesFrom(data, 0);
      DecodeWithCount(data, 4, false)
    else
      DecodeWithCount(data, 4, false)
  }

  /** With stride 4 and no alpha read, the loop from pixel i reads only inside the buffer and yields RgbAt for each pixel from i on. */
  lemma {:induction false} SourceRgbDecodesFrom(data: seq<byte>, i: nat)
    requires |data| % 4 == 0 && i <= |data| / 4
    ensures var r := DecodeFrom(data, 4, false, i);
      && r.Success? && |r.value| == |data| / 4 - i
      && forall j :: 0 <= j < |r.value| ==> r.value[j] == RgbAt(data, i + j)
    decreases |data| / 4 - i
  {
    if i < |data| / 4 {
      GroupInBounds(|data|, 4, i);
      SourceRgbDecodesFrom(data, i + 1);
    }
  }

  /** With stride 3, every pixel from i on is read, and the last one's alpha read lands one past the end. */
  lemma {:induction false} StrideThreeOverrunsFrom(data: seq<byte>, i: nat)
    requires |data| % 3 == 0 && i < |data| / 3
    ensures DecodeFrom(data, 3, true, i) == Failure(IndexOutOfRange)
    decreases |data| / 3 - i
  {
    if i + 1 < |data| / 3 {
      StrideThreeOverrunsFrom(data, i + 1);
    }
  }

  /**
   * Finding: the RGBA decoder as written raises IndexOutOfRange on every
   * non-empty buffer its own length check accepts; it can only decode the
   * empty buffer.
   */
  lemma SourceRgbaOverruns(data: seq<byte>)
    ensures |data| % 3 != 0 ==> SourceConvertBytesToColorsRGBA(data) == Failure(InvalidImageData)
    ensures |data| % 3 == 0 && |data| > 0 ==> SourceConvertBytesToColorsRGBA(data) == Failure(IndexOutOfRange)
    ensures data == [] ==> SourceConvertBytesToColorsRGBA(data) == Success([])
  {
    if |data| % 3 == 0 && |data| > 0 {
      StrideThreeOverrunsFrom(data, 0);
    }
  }

  /**
   * With each stride matched to its layout (4 bytes when alpha is read, 3
   * when it is not), the source's loop reads only inside the buffer and
   * produces exactly the reference decoding from pixel i on.
   */
  lemma {:induction false} MatchedStrideDecodesFrom(data: seq<byte>, layout: Layout, i: nat)
    requires |data| % layout.BytesPerPixel() == 0 && i <= |data| / layout.BytesPerPixel()
    ensures DecodeFrom(data, layout.BytesPerPixel(), layout == RGBA, i)
      == Success(Decoded(data, layout)[i..])
    decreases |data| / layout.BytesPerPixel() - i
  {
    var n := layout.BytesPerPixel();
    DecodedAt(data, layout);
    if i < |data| / n {
      MatchedStrideDecodesFrom(data, layout, i + 1);
      GroupInBounds(|data|, n, i);
      assert Decoded(data, layout)[i..] == [PixelAt(data, layout, i)] + Decoded(data, layout)[i + 1..];
    }
  }

  /** The corrected decoders: the source's code with its two strides swapped back decodes every buffer of whole pixels. */
  lemma MatchedStrideDecodes(data: seq<byte>, layout: Layout)
    requires |data| % layout.BytesPerPixel() == 0
    ensures DecodeWithCount(data, layout.BytesPerPixel(), layout == RGBA) == Success(Decoded(data, layout))
  {
    MatchedStrideDecodesFrom(data, layout, 0);
    DecodedAt(data, layout);
  }

  /**
   * Finding: the RGB decoder as written rejects a well-formed three-byte
   * pixel buffer (three pixels, nine bytes) that the corrected decoder
   * accepts, and a four-pixel buffer comes out as three colours built from
   * the wrong bytes.
   */
  lemma SourceRgbMisgroups()
    ensures SourceConvertBytesToColorsRGB([1, 2, 3, 4, 5, 6, 7, 8, 9]) == Failure(InvalidImageData)
    ensures DecodeWithCount([1, 2, 3, 4, 5, 6, 7, 8, 9], 3, false).Success?
    ensures SourceConvertBytesToColorsRGB([1, 2, 3, 4, 5, 6, 7, 8, 9, 10, 11, 12])
      == Success([Color(255, 3, 2, 1), Color(255, 7, 6, 5), Color(255, 11, 10, 9)])
    ensures Decoded([1, 2, 3, 4, 5, 6, 7, 8, 9, 10, 11, 12], RGB)
      == [Color(255, 3, 2, 1), Color(255, 6, 5, 4), Color(255, 9, 8, 7), Color(255, 12, 11, 10)]
  {
    MatchedStrideDecodes([1, 2, 3, 4, 5, 6, 7, 8, 9], RGB);
    var twelve: seq<byte> := [1, 2, 3, 4, 5, 6, 7, 8, 9, 10, 11, 12];
    assert twelve[3..][3..][3..][3..] == [];
    assert |twelve| / 4 == 3;
    assert DecodeFrom(twelve, 4, false, 3) == Success([]);
    var r2 := DecodeFrom(twelve, 4, false, 2);
    assert r2.Success? && r2.value == [Color(255, 11, 10, 9)];
    var r1 := DecodeFrom(twelve, 4, false, 1);
    assert r1.Success? && r1.value == [Color(255, 7, 6, 5), Color(255, 11, 10, 9)];
    var r0 := DecodeFrom(twelve, 4, false, 0);
    assert r0.Success? && r0.value == [Color(255, 3, 2, 1), Color(255, 7, 6, 5), Color(255, 11, 10, 9)];
  }

  /** The RGB decoder as written never looks at the fourth byte of a group: changing those bytes changes nothing. */
  lemma {:induction false} SourceRgbIgnoresFourthByteFrom(data: seq<byte>, data': seq<byte>, i: nat)
    requires |data| == |data'|
    requires forall k :: 0 <= k < |data| && k % 4 != 3 ==> data[k] == data'[k]
    ensures DecodeFrom(data, 4, false, i) == DecodeFrom(data', 4, false, i)
    decreases |data| / 4 - i
  {
    if i < |data| / 4 {
      GroupInBounds(|data|, 4, i);
      assert (i * 4) % 4 == 0 && (i * 4 + 1) % 4 == 1 && (i * 4 + 2) % 4 == 2;
      SourceRgbIgnoresFourthByteFrom(data, data', i + 1);
    }
  }

  /** So is the whole decoder, length check included. */
  lemma SourceRgbIgnoresFourthByte(data: seq<byte>, data': seq<byte>)
    requires |data| == |data'|
    requires forall k :: 0 <= k < |data| && k % 4 != 3 ==> data[k] == data'[k]
    ensures SourceConvertBytesToColorsRGB(data) == SourceConvertBytesToColorsRGB(data')
  {
    SourceRgbIgnoresFourthByteFrom(data, data', 0);
  }
}

=== FILE: pixel_codec.dfy ===
/**
 * Decoding a flat byte buffer into colours, one group of bytes per pixel:
 * blue, green, red and, in the four-byte layout, alpha. The three-byte layout
 * has no alpha byte and every pixel is fully opaque.
 *
 * The decoder here steps 4 bytes per pixel for RGBA and 3 for RGB; the
 * source's two decoders have these strides swapped (see LegacyDecoders).
 */
module PixelCodec {
  import opened ImageTypes
  import opened GridIndex

  /** The colour stored in one pixel's group of bytes. */
  function ColorOf(group: seq<byte>, layout: Layout): (c: Color)
    requires |group| == layout.BytesPerPixel()
  {
    Color(if layout == RGBA then group[3] else 255, group[2], group[1], group[0])
  }

  /** The bytes of pixel i of a buffer that holds |s| / bpp whole pixels. */
  function Group(s: seq<byte>, layout: Layout, i: int): (g: seq<byte>)
    requires 0 <= i < |s| / layout.BytesPerPixel()
    ensures |g| == layout.BytesPerPixel()
    ensures forall k :: 0 <= k < |g| ==> g[k] == s[i * layout.BytesPerPixel() + k]
  {
    var n := layout.BytesPerPixel();
    GroupInBounds(|s|, n, i);
    s[i * n .. (i + 1) * n]
  }

  /** Colour i of a buffer: blue from byte i*bpp, green from i*bpp+1, red from i*bpp+2, alpha from i*bpp+3 or 255. */
  function PixelAt(s: seq<byte>, layout: Layout, i: int): (c: Color)
    requires 0 <= i < |s| / layout.BytesPerPixel()
  {
    ColorOf(Group(s, layout, i), layout)
  }

  /**
   * The reference decoding, one group at a time from the front of the
   * buffer; defined only for a buffer of whole pixels.
   */
  function Decoded(s: seq<byte>, layout: Layout): (cs: seq<Color>)
    requires |s| % layout.BytesPerPixel() == 0
    ensures |cs| == |s| / layout.BytesPerPixel()
    decreases |s|
  {
    var n := layout.BytesPerPixel();
    if |s| == 0 then []
    else
      DropGroup(|s|, n);
      [ColorOf(s[..n], layout)] + Decoded(s[n..], layout)
  }

  /** The bytes a colour is stored as: blue, green, red and, for RGBA only, alpha. */
  function EncodeColor(c: Color, layout: Layout): (g: seq<byte>)
    ensures |g| == layout.BytesPerPixel()
    ensures ColorOf(g, layout) == AsStored(c, layout)
  {
    if layout == RGBA then [c.blue, c.green, c.red, c.alpha] else [c.blue, c.green, c.red]
  }

  /** What is left of a colour once it has been stored in a layout: RGB drops alpha and reads back 255. */
  function AsStored(c: Color, layout: Layout): (stored: Color) {
    if layout == RGBA then c else c.(alpha := 255)
  }

  /** The inverse of Decoded: colours laid out one group after another. */
  function Encode(cs: seq<Color>, layout: Layout): (s: seq<byte>)
    ensures |s| == |cs| * layout.BytesPerPixel()
  {
    if cs == [] then [] else EncodeColor(cs[0], layout) + Encode(cs[1..], layout)
  }

  /** A group read back as a colour and stored again gives the same bytes. */
  lemma GroupRoundTrip(g: seq<byte>, layout: Layout)
    requires |g| == layout.BytesPerPixel()
    ensures EncodeColor(ColorOf(g, layout), layout) == g
  {
  }

  /** The reference decoding yields |s| / bpp colours, colour i being decoded from group i. */
  lemma {:induction false} DecodedAt(s: seq<byte>, layout: Layout)
    requires |s| % layout.BytesPerPixel() == 0
    ensures |Decoded(s, layout)| == |s| / layout.BytesPerPixel()
    ensures forall i :: 0 <= i < |s| / layout.BytesPerPixel() ==> Decoded(s, layout)[i] == PixelAt(s, layout, i)
    decreases |s|
  {
    var n := layout.BytesPerPixel();
    if |s| > 0 {
      DropGroup(|s|, n);
      var rest := s[n..];
      DecodedAt(rest, layout);
      forall i | 0 <= i < |s| / n
        ensures Decoded(s, layout)[i] == PixelAt(s, layout, i)
      {
        if i > 0 {
          assert Decoded(s, layout)[i] == Decoded(rest, layout)[i - 1];
          GroupInBounds(|rest|, n, i - 1);
          assert Group(rest, layout, i - 1) == Group(s, layout, i);
        } else {
          assert Group(s, layout, 0) == s[..n];
        }
      }
    }
  }

  /** Decoding loses nothing: encoding the decoded colours gives back the buffer, in either layout. */
  lemma {:induction false} EncodeDecoded(s: seq<byte>, layout: Layout)
    requires |s| % layout.BytesPerPixel() == 0
    ensures Encode(Decoded(s, layout), layout) == s
    decreases |s|
  {
    var n := layout.BytesPerPixel();
    if |s| > 0 {
      DropGroup(|s|, n);
      EncodeDecoded(s[n..], layout);
      GroupRoundTrip(s[..n], layout);
      var cs := Decoded(s, layout);
      assert cs[1..] == Decoded(s[n..], layout);
      assert s == s[..n] + s[n..];
    }
  }

  /**
   * Decoding what was encoded gives the colours back, except that the RGB
   * layout forgets alpha and reads it back as 255.
   */
  lemma {:induction false} DecodeEncoded(cs: seq<Color>, layout: Layout)
    ensures |Encode(cs, layout)| % layout.BytesPerPixel() == 0
    ensures |Decoded(Encode(cs, layout), layout)| == |cs|
    ensures forall i :: 0 <= i < |cs| ==> Decoded(Encode(cs, layout), layout)[i] == AsStored(cs[i], layout)
  {
    var n := layout.BytesPerPixel();
    WholeGroups(|cs|, n);
    if cs != [] {
      DecodeEncoded(cs[1..], layout);
      var s := Encode(cs, layout);
      assert s[..n] == EncodeColor(cs[0], layout);
      assert s[n..] == Encode(cs[1..], layout);
      assert Decoded(s, layout) == [AsStored(cs[0], layout)] + Decoded(Encode(cs[1..], layout), layout);
    }
  }

  /**
   * ConvertBytesToColorsRGBA (layout RGBA) and ConvertBytesToColorsRGB
   * (layout RGB): a null buffer or one that is not a whole number of pixels
   * is rejected before anything is allocated; otherwise a fresh array holds
   * one colour per pixel, in buffer order.
   */
  method ConvertBytesToColors(imageData: array?<byte>, layout: Layout) returns (r: Result<array<Color>>)
    ensures r.Failure? <==> imageData == null || imageData.Length % layout.BytesPerPixel() != 0
    ensures r.Failure? ==> r.error == InvalidImageData
    ensures r.Success? ==> (
      && imageData != null
      && fresh(r.value)
      && r.value.Length == imageData.Length / layout.BytesPerPixel()
      && (forall i :: 0 <= i < r.value.Length ==> r.value[i] == PixelAt(imageData[..], layout, i))
      && r.value[..] == Decoded(imageData[..], layout))
  {
    var count := layout.BytesPerPixel();
    if imageData == null || imageData.Length % count != 0 {
      return Failure(InvalidImageData);
    }
    var colors := new Color[imageData.Length / count];
    for i := 0 to colors.Length
      invariant forall j :: 0 <= j < i ==> colors[j] == PixelAt(imageData[..], layout, j)
    {
      GroupInBounds(imageData.Length, count, i);
      var offset := i * count;
      var blue := imageData[offset];
      var green := imageData[offset + 1];
      var red := imageData[offset + 2];
      var alpha: byte := if layout == RGBA then imageData[offset + 3] else 255;
      colors[i] := Color(alpha, red, green, blue);
      assert colors[i] == PixelAt(imageData[..], layout, i);
    }
    DecodedAt(imageData[..], layout);
    return Success(colors);
  }
}

=== FILE: sampling_window.dfy ===
/**
 * The source rectangle each output pixel averages. Along one axis, output
 * column (or row) n of dst covers source columns [start, end) with
 * start = floor(n * src / dst) and end = min(src, floor((n + 1) * src / dst)),
 * computed here with exact integer division.
 */
module SamplingWindow {
  import opened GridIndex

  function Min(a: int, b: int): (m: int) {
    if a <= b then a else b
  }

  function WindowStart(n: int, src: int, dst: int): (start: int)
    requires 0 < dst
  {
    n * src / dst
  }

  function WindowEnd(n: int, src: int, dst: int): (end: int)
    requires 0 < dst
  {
    Min(src, (n + 1) * src / dst)
  }

  /**
   * When shrinking (or keeping the size), every window holds at least one
   * source column and lies inside the source; the `min` never takes effect.
   */
  lemma WindowInside(n: int, src: int, dst: int)
    requires 0 <= n < dst <= src
    ensures 0 <= WindowStart(n, src, dst) < WindowEnd(n, src, dst) <= src
    ensures WindowEnd(n, src, dst) == (n + 1) * src / dst
  {
    var start := n * src / dst;
    MulMonotone(0, n, src);
    DivMonotone(0, n * src, dst);
    assert (n + 1) * src == n * src + src;
    DivMonotone(n * src + dst, (n + 1) * src, dst);
    assert n * src == start * dst + n * src % dst;
    DivModUnique(n * src + dst, dst, start + 1, n * src % dst);
    MulMonotone(n + 1, dst, src);
    DivMonotone((n + 1) * src, dst * src, dst);
    DivModUnique(dst * src, dst, src, 0);
  }

  /** Window starts never move backwards. */
  lemma WindowStartMonotone(m: int, n: int, src: int, dst: int)
    requires 0 <= m <= n && 0 <= src && 0 < dst
    ensures WindowStart(m, src, dst) <= WindowStart(n, src, dst)
  {
    MulMonotone(m, n, src);
    DivMonotone(m * src, n * src, dst);
  }

  /** Each window ends where the next one starts. */
  lemma WindowsTile(n: int, src: int, dst: int)
    requires 0 <= n && n + 1 < dst <= src
    ensures WindowEnd(n, src, dst) == WindowStart(n + 1, src, dst)
  {
    WindowInside(n, src, dst);
  }

  /** The first window starts at the first source column and the last one ends at the last. */
  lemma WindowsSpan(src: int, dst: int)
    requires 0 < dst <= src
    ensures WindowStart(0, src, dst) == 0
    ensures WindowEnd(dst - 1, src, dst) == src
  {
    WindowInside(dst - 1, src, dst);
    DivModUnique(dst * src, dst, src, 0);
  }

  /** An earlier window ends at or before a later one starts, so no source column lies in two windows. */
  lemma WindowsDisjoint(m: int, n: int, src: int, dst: int)
    requires 0 <= m < n < dst <= src
    ensures WindowEnd(m, src, dst) <= WindowStart(n, src, dst)
  {
    WindowsTile(m, src, dst);
    WindowStartMonotone(m + 1, n, src, dst);
  }

  lemma {:induction false} WindowCoversFrom(x: int, n: int, src: int, dst: int)
    requires 0 <= n < dst <= src && WindowStart(n, src, dst) <= x < src
    ensures exists m :: n <= m < dst && WindowStart(m, src, dst) <= x < WindowEnd(m, src, dst)
    decreases dst - n
  {
    if x >= WindowEnd(n, src, dst) {
      WindowsSpan(src, dst);
      WindowsTile(n, src, dst);
      WindowCoversFrom(x, n + 1, src, dst);
    }
  }

  /** Every source column lies in some window: with WindowsDisjoint, the windows partition the source. */
  lemma WindowCovers(x: int, src: int, dst: int)
    requires 0 <= x < src && 0 < dst <= src
    ensures exists n :: 0 <= n < dst && WindowStart(n, src, dst) <= x < WindowEnd(n, src, dst)
  {
    WindowsSpan(src, dst);
    WindowCoversFrom(x, 0, src, dst);
  }

  /** Keeping the size, window n is the single column n. */
  lemma SameSizeWindows(n: int, size: int)
    requires 0 <= n < size
    ensures WindowStart(n, size, size) == n && WindowEnd(n, size, size) == n + 1
  {
    DivModUnique(n * size, size, n, 0);
    DivModUnique((n + 1) * size, size, n + 1, 0);
  }
}
